=== FILE: README.md ===
# FireCMS decision logic, modelled in Dafny

FireCMS is a content-management UI toolkit. It renders collection tables,
edit and delete dialogs and reference previews from a declarative schema.
Data lives in an external document datasource. This project models the
decision logic inside six pieces of its UI glue as pure functions over
immutable datatypes, and proves properties of them:

- **Permission resolution** (`Permissions`). A permission setting is unset,
  a fixed record, or a builder. It resolves to a `Permissions` record.
  `canEdit`, `canCreate` and `canDelete` treat an undefined field as granted.
- **Delete with callbacks** (`DeleteWithCallbacks`). A state machine runs
  the pre-delete hook, the datasource delete, the success callback and the
  delete hook. How each stage and callback ends is an input. The run returns
  how its promise settles and the trace of invocations.
- **Delete dialog** (`DeleteDialog`). It covers target normalisation, what
  "Ok" sets in motion in single and multiple mode, the success / warning /
  error summary, and the title.
- **Reference preview** (`ReferencePreview`). It covers which property keys
  are listed for each size, which body is shown, and when rendering raises.
- **Text search** (`TextSearch`). Ids from the search delegate are hydrated
  into entities: failed fetches and entities without values are dropped, and
  id order is kept.
- **Route assembly** (`CmsRoutes`). Collections are stably sorted by
  descending relative-path length. Each custom-view path becomes one route.
  The routes are concatenated as collections, views, home, and matched
  against the base location.

External effects are inputs. These are the datasource delete and fetch, the
search delegate, the schema hooks, the caller's callbacks and the schema
registry. A promise that settles is `Fulfilled(value)` or `Rejected(error)`,
and a step that may throw is `Returns` or `Throws(error)`. For the awaited
pre-delete hook and the datasource promise, `Throws` also covers a rejection.
The delete hook and the caller's callbacks are not awaited, so for them it
is a synchronous throw only.

Where the code goes further than a plain reading of its purpose, the model
follows the code. For example, the delete run settles with `true` only when
the caller's `onDeleteSuccess` callback does not throw. That callback runs
outside the inner `try`, so a throw from it reaches `.catch`.

## Model

| member | source | states |
|---|---|---|
| `Permissions.CheckHasPermissionOnEntity` | src/util/permissions.ts:4-31 | An unset setting resolves to the defaults, which grant edit, create and delete. A fixed record is returned unchanged. A builder's result is its answer for the logged user, the entity, the path and the context. |
| `Permissions.CanEdit` | src/util/permissions.ts:33-40 | Editing is refused exactly when the resolved `edit` field is explicitly false. An undefined field grants. |
| `Permissions.CanCreate` | src/util/permissions.ts:42-48 | Creation resolves with no entity. It is refused exactly when the resolved `create` field is explicitly false. |
| `Permissions.CanDelete` | src/util/permissions.ts:50-57 | Deletion is refused exactly when the resolved `delete` field is explicitly false. |
| `Permissions.UnsetAllowsEverything` | src/util/permissions.ts:4-57 | With no setting, all three predicates hold for every entity, user, path and context. |
| `Permissions.FixedIgnoresCaller` | src/util/permissions.ts:19-20 | A fixed record is returned unchanged. The three answers are its fields, defaulted to true, whatever the caller passes. |
| `Permissions.BuilderDecidesFromProps` | src/util/permissions.ts:21-28 | With a builder, `canEdit` and `canDelete` refuse exactly when the builder's answer for the logged user, the entity, the path and the context sets `edit` (or `delete`) to false. `canCreate` refuses exactly when its answer with no entity sets `create` to false. |
| `DeleteWithCallbacks.OnDeleteProps` | src/hooks/data/delete.ts:56-62 | The hook props carry the entity, the schema, `entityId = entity.id` and `path = entity.path`. |
| `DeleteWithCallbacks.DeleteEntityWithCallbacks` | src/hooks/data/delete.ts:39-93 | Without a pre-delete hook, the first invocation is the datasource delete. The run settles with true iff four things hold: the pre-hook is absent or returns, the datasource delete fulfils, the success callback does not throw, and the delete hook is absent or returns. It rejects iff the pre-hook throws and so does its error callback, or the run reaches `.catch` and `onDeleteFailure` throws. The run reaches `.catch` when the datasource delete fails, the success callback throws, or the delete hook and its error callback both throw. |
| `DeleteWithCallbacks.TraceIsOrdered` | src/hooks/data/delete.ts:64-92 | Every run invokes in the fixed order: pre-hook, its error callback, datasource delete, success callback, delete hook, its error callback, failure callback. Nothing is invoked twice. |
| `DeleteWithCallbacks.PreDeleteFailureStops` | src/hooks/data/delete.ts:64-72 | If the pre-delete hook throws, the trace is exactly the hook, then its error callback if given: no datasource delete and no other callback. The result is false unless that callback throws. |
| `DeleteWithCallbacks.SuccessCallbackPrecedesDeleteHook` | src/hooks/data/delete.ts:77-82 | After a successful datasource delete, `onDeleteSuccess` is invoked before the schema's `onDelete`. |
| `DeleteWithCallbacks.DataSourceFailureReported` | src/hooks/data/delete.ts:74-92 | A failing datasource delete gives exactly the pre-hook (if defined), the delete, then `onDeleteFailure` if given. The run settles with false, or rejects with the failure callback's own error when that callback throws. |
| `DeleteWithCallbacks.SuccessCallbackThrowReachesCatch` | src/hooks/data/delete.ts:77-92 | A throw from `onDeleteSuccess` skips the delete hook and reaches `.catch`. The trace is exactly the pre-hook (if defined), the delete, the success callback, then `onDeleteFailure` with that error if given. The run settles with false, or rejects when the failure callback throws. |
| `DeleteWithCallbacks.DeleteHookFailureReported` | src/hooks/data/delete.ts:79-88 | A throwing `onDelete` gives exactly the pre-hook (if defined), the delete, the success callback (if given), the hook, then `onDeleteSuccessHookError` if given. `onDeleteFailure` follows only when that callback throws. The result is false unless it throws. |
| `DeleteWithCallbacks.SettledTrueTrace` | src/hooks/data/delete.ts:64-83 | A run that settles with true invokes exactly the pre-hook (if defined), the datasource delete, the success callback (if given) and the delete hook (if defined). No error or failure callback runs. |
| `DeleteWithCallbacks.HappyPath` | src/hooks/data/delete.ts:64-83 | When all stages and the success callback return, the trace is exactly pre-hook, datasource delete, success callback, delete hook, and the result is true. |
| `DeleteDialog.Normalise` | src/collection/internal/DeleteEntityDialog.tsx:50-52 | Normalising keeps the entities and their order. The result is an array exactly when the input names other than one entity, so a one-element array becomes single and an empty array stays multiple. |
| `DeleteDialog.NormaliseIdempotent` | src/collection/internal/DeleteEntityDialog.tsx:50-53 | Normalising twice is the same as normalising once. |
| `DeleteDialog.OnTargetChange` | src/collection/internal/DeleteEntityDialog.tsx:48-55 | An undefined prop leaves the remembered target unchanged. Any other prop is remembered with its entities. It sets multiple mode iff it names other than one entity. |
| `DeleteDialog.Classify` | src/collection/internal/DeleteEntityDialog.tsx:121-136 | The notice is success iff all results are true (including none), warning iff some but not all are true, and error iff there is at least one result and none is true. |
| `DeleteDialog.HandleOk` | src/collection/internal/DeleteEntityDialog.tsx:108-155 | With no target nothing happens. Otherwise loading starts and one delete is started per target entity, in order. |
| `DeleteDialog.MultipleDeleteClosesWhenAllFulfil` | src/collection/internal/DeleteEntityDialog.tsx:113-138 | In multiple mode the dialog closes iff every delete promise fulfilled and `onMultipleEntitiesDelete` did not throw, whatever the booleans. The full list goes to `onMultipleEntitiesDelete` iff every delete fulfilled and that callback is given. The notice, the classification of the booleans, is shown iff that callback did not throw. |
| `DeleteDialog.MultipleDeleteStopsLoading` | src/collection/internal/DeleteEntityDialog.tsx:113-138 | In multiple mode loading stops iff every delete fulfilled, so one rejected delete leaves the spinner up. Closing, when it happens, is the last effect. |
| `DeleteDialog.SingleDeleteClosesOnlyOnSuccess` | src/collection/internal/DeleteEntityDialog.tsx:140-152 | In single mode, `onEntityDelete` is invoked iff it is given and the delete fulfilled with true. The success notice and closing happen iff the delete fulfilled with true and `onEntityDelete` did not throw. |
| `DeleteDialog.SingleDeleteStopsLoading` | src/collection/internal/DeleteEntityDialog.tsx:140-152 | In single mode loading stops iff the delete fulfilled, with either boolean, so a rejected delete leaves the spinner up. Closing, when it happens, is the last effect. |
| `DeleteDialog.RejectedDeleteShowsNothing` | src/collection/internal/DeleteEntityDialog.tsx:113-152 | When a delete of a multiple delete rejects, or the single delete rejects, only the start of the deletes happens. There is no notice, no callback and no closing, and loading never stops. |
| `DeleteDialog.UnsuccessfulSingleDeleteOnlyStopsLoading` | src/collection/internal/DeleteEntityDialog.tsx:140-152 | A single delete that fulfils with false only stops loading. There is no notice and no callback, and the dialog stays open. |
| `DeleteDialog.NoTargetNoEffect` | src/collection/internal/DeleteEntityDialog.tsx:108-109 | Pressing "Ok" with no target does nothing. |
| `DeleteDialog.TitleFollowsNormalisedMode` | src/collection/internal/DeleteEntityDialog.tsx:162-163 | After a target is given, the title is "`<name>`: Confirm multiple delete?" iff it names other than one entity. Otherwise it is "Would you like to delete this `<name>`?". |
| `ReferencePreview.ListProperties` | src/preview/components/ReferencePreview.tsx:125-133 | The listed keys are a prefix of the preview keys, or of the schema keys when the preview keys are missing or empty. Their length is the smaller of the base length and the size's limit (3 for small and regular, 1 for tiny). |
| `ReferencePreview.ListPropertiesBounds` | src/preview/components/ReferencePreview.tsx:125-133 | Without preview keys, the list is a prefix of the schema keys. Tiny lists at most one key and the other sizes at most three. Every listed key is a base key. |
| `ReferencePreview.ChooseBody` | src/preview/components/ReferencePreview.tsx:141-149 | There are four bodies. "Not set" is shown iff the value is falsy, and "unexpected" iff it is a truthy non-reference. "Does not exist" is shown iff it is a reference whose loaded entity has no values. Otherwise the preview is shown, with the reference and the listed keys. |
| `ReferencePreview.ReferencePreviewAsWritten` | src/preview/components/ReferencePreview.tsx:103-149 | As written, a missing collection config raises. Rendering succeeds iff the config exists and the value is not undefined. |
| `ReferencePreview.UndefinedValueRaisesAsWritten` | src/preview/components/ReferencePreview.tsx:115-143 | As written, an undefined value raises when its `path` is read. The body choice would have shown "Reference not set". |
| `ReferencePreview.RenderReferencePreview` | src/preview/components/ReferencePreview.tsx:106-149 | Corrected: rendering raises iff the collection config for the property path is missing, and then with that path. Otherwise it renders the chosen body over the listed keys. |
| `ReferencePreview.UndefinedValueShowsNotSet` | src/preview/components/ReferencePreview.tsx:141-142 | Corrected: with a registered collection, an undefined value renders "Reference not set". |
| `ReferencePreview.CorrectionOnlyAffectsUndefined` | src/preview/components/ReferencePreview.tsx:103-149 | The corrected and as-written components agree on every value that is not undefined. |
| `TextSearch.KeepPresent` | src/hooks/useTextSearch.tsx:70-71 | The filter keeps at most as many entities as results, and every kept entity has values. |
| `TextSearch.KeepPresentAppend` | src/hooks/useTextSearch.tsx:70-71 | Filtering preserves order: filtering a concatenation is the concatenation of the filtered parts. |
| `TextSearch.KeepPresentMembership` | src/hooks/useTextSearch.tsx:70-71 | An entity survives iff it was found (non-null) and has values. |
| `TextSearch.HydrateAppend` | src/hooks/useTextSearch.tsx:55-71 | Hydrated entities keep the order of the delegate's ids. |
| `TextSearch.HydrateMembership` | src/hooks/useTextSearch.tsx:55-71 | An entity is in the result iff the fetch of one of the ids returned it and it has values. Failed fetches become null and are dropped. |
| `TextSearch.OnTextSearch` | src/hooks/useTextSearch.tsx:49-76 | Without a delegate nothing changes. An empty or missing string clears the data and loading. A failing delegate keeps the data, raises loading and issues no fetch. Every fetch uses the hook's path and schema. A finished search keeps no more entities than it fetched. |
| `TextSearch.OnSearchInputsChange` | src/hooks/useTextSearch.tsx:78-87 | An empty or undefined search string yields empty data with loading false, with or without a delegate. Any other string runs the search. |
| `TextSearch.CompletedSearch` | src/hooks/useTextSearch.tsx:55-74 | A completed search issues one fetch per id, in id order. Its data are the hydrated ids, at most one per id, and loading ends. |
| `CmsRoutes.Insert` | src/core/CMSRoutes.tsx:62-64 | Insertion into a sorted list adds exactly the new collection and keeps the list sorted by non-increasing path length. |
| `CmsRoutes.SortCollections` | src/core/CMSRoutes.tsx:62-64 | The sorted collections are a permutation of the navigation's collections, ordered by non-increasing relative-path length. |
| `CmsRoutes.SortIsStable` | src/core/CMSRoutes.tsx:62-64 | Collections with equal path length keep their navigation order. |
| `CmsRoutes.RenderedCollectionsStable` | src/core/CMSRoutes.tsx:62-68 | In the rendered routes, collections of equal path length keep their navigation order. |
| `CmsRoutes.ViewRoutes` | src/core/CMSRoutes.tsx:54-59 | A view with a string path yields exactly one route. A view with an array path yields one route per element, in order. |
| `CmsRoutes.CustomRoutesOne` | src/core/CMSRoutes.tsx:54-59 | A single view contributes exactly its own routes. With `CustomRoutesAppend`, the custom routes are the routes of each view, view after view. |
| `CmsRoutes.CustomRoutesAppend` | src/core/CMSRoutes.tsx:54-59 | Views contribute their routes in view order: the custom routes of concatenated view lists are the concatenated custom routes. |
| `CmsRoutes.CustomRoutesCount` | src/core/CMSRoutes.tsx:54-59 | There is exactly one custom route per view path. |
| `CmsRoutes.RenderRoutes` | src/core/CMSRoutes.tsx:26-101 | No navigation renders nothing. Otherwise the routes match against `base_location` when set, else the current location. There is one route per collection and per view path plus the home route, which is last. |
| `CmsRoutes.RouteBlocks` | src/core/CMSRoutes.tsx:62-101 | The collection block is exactly the sorted collections, so it holds every collection of the navigation exactly as often as the navigation does. The view block is the custom routes of the views, in view order. |
| `CmsRoutes.RouteOrder` | src/core/CMSRoutes.tsx:62-101 | The routes are all collection routes, then all view routes, then home. The collection routes are ordered by non-increasing relative-path length. |

## Left out

- React rendering, JSX, styling, material-ui, `React.memo`, and the `useRef`/`useState`/`useEffect` lifecycle. Effects are modelled as functions from old state to new state. Stale reads of the dialog's ref between renders are not modelled.
- The datasource (`deleteEntity`, `fetchEntity`), the text-search delegate, `useEntityFetch`, the side entity controller and the snackbar are external. Their outcomes are inputs; notices are modelled only by kind.
- `Promise.all` concurrency is modelled as a sequential, order-preserving map.
- Overlapping text searches that finish out of order are not modelled.
- `addInitialSlash`, `buildCollectionUrl`, `EntityReference` construction and the schema registry are not part of this model. Routes carry the raw path, and the registry is a map.
- `isFirestoreReference` (src/preview/components/ReferencePreview.tsx:97-100) is computed but never used.
- Console logging and notification texts are left out. The exception is the dialog titles.
- example/src/SampleApp/schemas/test_schema.ts is a declarative sample configuration rather than library logic.
- The final `throw` of `checkHasPermissionOnEntity` cannot be reached: the setting datatype has exactly three variants.
- The builder's context is an opaque value. The `context` field of the delete hook props is not modelled.
- A synchronous throw from `dataSource.deleteEntity` is not modelled; only a rejected promise is. A synchronous throw would reject the whole run.
- In text search only the final hook state is modelled. The transient `loading = true` is not. A failing delegate leaves loading raised and the data unchanged.
- `PreviewSize` is exactly regular, small or tiny. The untruncated fall-through for other sizes cannot be reached.
- `CmsRoutes.Key` counts path length in characters (Unicode scalar values). JavaScript's `length` counts UTF-16 code units, so the two differ for characters outside the Basic Multilingual Plane.
- `DeleteWithCallbacks.DeleteEntityWithCallbacks`: an asynchronous rejection from the schema's `onDelete` or from the caller's callbacks is not observed, because the source does not await them. Such a callback counts as `Returns`, and the run still settles with true when the other conditions hold.
- `DeleteDialog.HandleOk`: `onClose` and the snackbar are assumed not to throw. `onClose` is the last call of each handler, so its throw would change no visible effect.
- `TextSearch.FetchAll`: the fetch outcome is a function of the request, so two equal ids returned by the delegate always get the same outcome. The concurrent fetches of the source may differ.
- `Permissions.CheckHasPermissionOnEntity`: a builder is a total function here. A builder that throws is not modelled; in the source its exception propagates out of `canEdit`, `canCreate` and `canDelete`.
- The sort works on a copy in the source. Here values are immutable, so the navigation's list is unchanged by construction.

## Findings

| source | as written | input that shows it | evidently intended | confidence | as-written member | corrected member |
|---|---|---|---|---|---|---|
| src/preview/components/ReferencePreview.tsx:120 | `reference.path` (the value itself) is read for the entity fetch before the `!value` check on line 141. | `value` undefined or null, with a registered collection: reading `path` raises a TypeError. | An unset reference renders "Reference not set", as the branch on lines 141-142 provides. | low: not executed; the caller in `PreviewComponent`, which is not part of this model, may never pass a missing value | `ReferencePreview.ReferencePreviewAsWritten`, `ReferencePreview.UndefinedValueRaisesAsWritten` | `ReferencePreview.RenderReferencePreview`, `ReferencePreview.UndefinedValueShowsNotSet` |

=== FILE: cms_routes.dfy ===
/**
 Route assembly (src/core/CMSRoutes.tsx). Collection routes come first,
 ordered so that longer relative paths (nested collections) precede shorter
 ones; then one route per path of every custom view; then the home route.
 The routes are matched against the base location stored in the current
 location's state, if any.
 */
module CmsRoutes {
  import opened Models

  datatype EntityCollection = EntityCollection(relativePath: string, name: string)

  /** A custom view is mounted at one path or at each of several paths. */
  datatype ViewPath = OnePath(path: string) | ManyPaths(paths: seq<string>)

  datatype CmsView = CmsView(path: ViewPath, name: string)

  /** `views` is absent when the navigation defines no custom views. */
  datatype Navigation = Navigation(collections: seq<EntityCollection>, views: Option<seq<CmsView>>)

  /** The views of a navigation; none when the field is absent. */
  function Views(nav: Navigation): seq<CmsView> {
    nav.views.GetOr([])
  }

  /**
   A router location. `baseLocation` is the `base_location` entry of the
   location's state, absent when the state or the entry is missing or falsy.
   */
  datatype Location = Location(pathname: string, baseLocation: Option<Location>)

  datatype Route = CollectionRoute(collection: EntityCollection) | ViewRoute(path: string, view: CmsView) | HomeRoute

  /** What the component renders: nothing, or the routes matched against a location. */
  datatype RoutesView = Nothing | Routes(location: Location, routes: seq<Route>)

  /** The sort key: the length of the collection's relative path. */
  function Key(c: EntityCollection): nat {
    |c.relativePath|
  }

  /** Non-increasing by key. */
  ghost predicate SortedByKey(s: seq<EntityCollection>) {
    forall i, j :: 0 <= i < j < |s| ==> Key(s[i]) >= Key(s[j])
  }

  /** A sorted list stays sorted when an element with a key at least as large as all of it is put in front. */
  lemma SortedCons(head: EntityCollection, rest: seq<EntityCollection>)
    requires SortedByKey(rest)
    requires forall x :: x in rest ==> Key(x) <= Key(head)
    ensures SortedByKey([head] + rest)
  {
    var s := [head] + rest;
    forall i, j | 0 <= i < j < |s|
      ensures Key(s[i]) >= Key(s[j])
    {
      assert s[j] == rest[j - 1];
      if i > 0 {
        assert s[i] == rest[i - 1];
      } else {
        assert rest[j - 1] in rest;
      }
    }
  }

  /** Every element of a list with the same elements as `tail` plus `c` is bounded by a bound of both. */
  lemma BoundedByMultiset(rest: seq<EntityCollection>, tail: seq<EntityCollection>, c: EntityCollection, bound: nat)
    requires multiset(rest) == multiset(tail) + multiset{c}
    requires forall x :: x in tail ==> Key(x) <= bound
    requires Key(c) <= bound
    ensures forall x :: x in rest ==> Key(x) <= bound
  {
    forall x | x in rest
      ensures Key(x) <= bound
    {
      assert x in multiset(rest);
      assert x in multiset(tail) || x == c;
    }
  }

  /** The head of a sorted list has the largest key, and its tail is sorted. */
  lemma HeadIsLargest(sorted: seq<EntityCollection>)
    requires SortedByKey(sorted)
    ensures sorted != [] ==> forall x :: x in sorted ==> Key(x) <= Key(sorted[0])
    ensures sorted != [] ==> forall x :: x in sorted[1..] ==> Key(x) <= Key(sorted[0])
    ensures sorted != [] ==> SortedByKey(sorted[1..])
  {
    if sorted != [] {
      forall x | x in sorted
        ensures Key(x) <= Key(sorted[0])
      {
        var i :| 0 <= i < |sorted| && sorted[i] == x;
        assert Key(sorted[0]) >= Key(sorted[i]);
      }
      SortedTail(sorted);
    }
  }

  /**
   Inserts `c` into a sorted list before the first element whose key is not
   larger, so that `c` precedes the elements of equal key.
   */
  function Insert(c: EntityCollection, sorted: seq<EntityCollection>): (r: seq<EntityCollection>)
    requires SortedByKey(sorted)
    ensures multiset(r) == multiset(sorted) + multiset{c}
    ensures SortedByKey(r)
  {
    if sorted == [] || Key(sorted[0]) <= Key(c) then
      HeadIsLargest(sorted);
      SortedCons(c, sorted);
      [c] + sorted
    else
      var head, tail := sorted[0], sorted[1..];
      HeadIsLargest(sorted);
      assert sorted == [head] + tail;
      var rest := Insert(c, tail);
      BoundedByMultiset(rest, tail, c, Key(head));
      SortedCons(head, rest);
      [head] + rest
  }

  /**
   The collection order of the routes: a stable sort by descending length
   of the relative path (the comparator `b.length - a.length` of a stable
   `Array.prototype.sort`, applied to a copy of the list).
   */
  function SortCollections(collections: seq<EntityCollection>): (sorted: seq<EntityCollection>)
    ensures SortedByKey(sorted)
    ensures multiset(sorted) == multiset(collections)
  {
    if collections == [] then []
    else
      assert collections == [collections[0]] + collections[1..];
      Insert(collections[0], SortCollections(collections[1..]))
  }

  /** The elements of `s` whose key is `k`, in order. */
  function WithKey(s: seq<EntityCollection>, k: nat): seq<EntityCollection> {
    if s == [] then []
    else (if Key(s[0]) == k then [s[0]] else []) + WithKey(s[1..], k)
  }

  lemma {:induction false} WithKeyAppend(a: seq<EntityCollection>, b: seq<EntityCollection>, k: nat)
    ensures WithKey(a + b, k) == WithKey(a, k) + WithKey(b, k)
  {
    if a == [] {
      assert a + b == b;
    } else {
      var ab := a + b;
      assert ab[0] == a[0];
      assert ab[1..] == a[1..] + b;
      WithKeyAppend(a[1..], b, k);
      var first := if Key(a[0]) == k then [a[0]] else [];
      assert WithKey(ab, k) == first + WithKey(a[1..] + b, k);
      assert WithKey(a, k) == first + WithKey(a[1..], k);
    }
  }

  /** A single collection is kept by the filter exactly when it has the key. */
  lemma WithKeySingle(x: EntityCollection, k: nat)
    ensures WithKey([x], k) == if Key(x) == k then [x] else []
  {
    assert [x][1..] == [];
  }

  /** The tail of a sorted list is sorted. */
  lemma SortedTail(s: seq<EntityCollection>)
    requires SortedByKey(s) && s != []
    ensures SortedByKey(s[1..])
  {
    forall i, j | 0 <= i < j < |s| - 1
      ensures Key(s[1..][i]) >= Key(s[1..][j])
    {
      assert s[1..][i] == s[i + 1] && s[1..][j] == s[j + 1];
    }
  }

  /** How `Insert` unfolds when `c` goes behind the head of the list. */
  lemma InsertBehindHead(c: EntityCollection, sorted: seq<EntityCollection>)
    requires SortedByKey(sorted) && sorted != [] && Key(sorted[0]) > Key(c)
    ensures SortedByKey(sorted[1..])
    ensures Insert(c, sorted) == [sorted[0]] + Insert(c, sorted[1..])
  {
    SortedTail(sorted);
  }

  /** The filtered insertion when `c` goes behind the head, given the filtered insertion into the tail. */
  lemma InsertWithKeyBehindHead(c: EntityCollection, head: EntityCollection, tail: seq<EntityCollection>,
                                rest: seq<EntityCollection>, k: nat)
    requires Key(head) > Key(c)
    requires WithKey(rest, k) == (if Key(c) == k then [c] else []) + WithKey(tail, k)
    ensures WithKey([head] + rest, k) == (if Key(c) == k then [c] else []) + WithKey([head] + tail, k)
  {
    WithKeySingle(head, k);
    WithKeyAppend([head], rest, k);
    WithKeyAppend([head], tail, k);
  }

  lemma {:induction false} InsertWithKey(c: EntityCollection, sorted: seq<EntityCollection>, k: nat)
    requires SortedByKey(sorted)
    ensures WithKey(Insert(c, sorted), k) == (if Key(c) == k then [c] else []) + WithKey(sorted, k)
  {
    if sorted == [] || Key(sorted[0]) <= Key(c) {
      WithKeySingle(c, k);
      WithKeyAppend([c], sorted, k);
    } else {
      InsertBehindHead(c, sorted);
      InsertWithKey(c, sorted[1..], k);
      InsertWithKeyBehindHead(c, sorted[0], sorted[1..], Insert(c, sorted[1..]), k);
      assert [sorted[0]] + sorted[1..] == sorted;
    }
  }

  /**
   The sort is stable: the collections of any one path length appear in the
   sorted list in the order they had in the navigation.
   */
  lemma {:induction false} SortIsStable(collections: seq<EntityCollection>, k: nat)
    ensures WithKey(SortCollections(collections), k) == WithKey(collections, k)
  {
    if collections != [] {
      SortIsStable(collections[1..], k);
      InsertWithKey(collections[0], SortCollections(collections[1..]), k);
      WithKeyAppend([collections[0]], collections[1..], k);
      assert collections == [collections[0]] + collections[1..];
    }
  }

  /** The routes of one custom view: one per path, in order. */
  function ViewRoutes(view: CmsView): (routes: seq<Route>)
    ensures view.path.OnePath? ==> routes == [ViewRoute(view.path.path, view)]
    ensures view.path.ManyPaths? ==> |routes| == |view.path.paths|
    ensures view.path.ManyPaths? ==> forall i :: 0 <= i < |routes| ==> routes[i] == ViewRoute(view.path.paths[i], view)
  {
    match view.path
    case OnePath(p) => [ViewRoute(p, view)]
    case ManyPaths(ps) => seq(|ps|, i requires 0 <= i < |ps| => ViewRoute(ps[i], view))
  }

  /** The custom routes of all views, view after view. */
  function CustomRoutes(views: seq<CmsView>): (routes: seq<Route>)
    ensures forall i :: 0 <= i < |routes| ==> routes[i].ViewRoute?
  {
    if views == [] then [] else ViewRoutes(views[0]) + CustomRoutes(views[1..])
  }

  /** A single view contributes exactly its own routes. */
  lemma CustomRoutesOne(view: CmsView)
    ensures CustomRoutes([view]) == ViewRoutes(view)
  {
  }

  /** The number of paths a list of views is mounted at. */
  function PathCount(views: seq<CmsView>): nat {
    if views == [] then 0
    else (match views[0].path case OnePath(_) => 1 case ManyPaths(ps) => |ps|) + PathCount(views[1..])
  }

  /** Views contribute their routes in the order of the views. */
  lemma {:induction false} CustomRoutesAppend(a: seq<CmsView>, b: seq<CmsView>)
    ensures CustomRoutes(a + b) == CustomRoutes(a) + CustomRoutes(b)
    ensures PathCount(a + b) == PathCount(a) + PathCount(b)
  {
    if a == [] {
      assert a + b == b;
    } else {
      var ab := a + b;
      assert ab[0] == a[0];
      assert ab[1..] == a[1..] + b;
      CustomRoutesAppend(a[1..], b);
      assert CustomRoutes(ab) == ViewRoutes(a[0]) + CustomRoutes(a[1..] + b);
    }
  }

  /** There is exactly one custom route per view path. */
  lemma {:induction false} CustomRoutesCount(views: seq<CmsView>)
    ensures |CustomRoutes(views)| == PathCount(views)
  {
    if views != [] {
      CustomRoutesCount(views[1..]);
    }
  }

  /** The location the routes are matched against. */
  function BaseLocation(location: Location): Location {
    if location.baseLocation.Some? then location.baseLocation.value else location
  }

  /** The collection routes of a sorted list, one per collection. */
  function CollectionRoutes(collections: seq<EntityCollection>): (routes: seq<Route>)
    ensures |routes| == |collections|
    ensures forall i :: 0 <= i < |collections| ==> routes[i] == CollectionRoute(collections[i])
  {
    seq(|collections|, i requires 0 <= i < |collections| => CollectionRoute(collections[i]))
  }

  /**
   The rendered routes: nothing without a navigation; otherwise the sorted
   collection routes, then the custom view routes, then the home route,
   matched against the base location.
   */
  function RenderRoutes(location: Location, navigation: Option<Navigation>): (r: RoutesView)
    ensures navigation.None? <==> r.Nothing?
    ensures r.Routes? ==> r.location == (if location.baseLocation.Some? then location.baseLocation.value else location)
    ensures r.Routes? ==> |r.routes| == |navigation.value.collections| + |CustomRoutes(Views(navigation.value))| + 1
    ensures r.Routes? ==> r.routes[|r.routes| - 1] == HomeRoute
  {
    if navigation.None? then Nothing
    else
      var nav := navigation.value;
      assert |SortCollections(nav.collections)| == |nav.collections| by {
        assert |multiset(SortCollections(nav.collections))| == |multiset(nav.collections)|;
      }
      Routes(BaseLocation(location),
             CollectionRoutes(SortCollections(nav.collections)) + CustomRoutes(Views(nav)) + [HomeRoute])
  }

  /** The collections of a list of collection routes, in order. */
  function CollectionsOf(routes: seq<Route>): (collections: seq<EntityCollection>)
    requires forall i :: 0 <= i < |routes| ==> routes[i].CollectionRoute?
    ensures |collections| == |routes|
    ensures forall i :: 0 <= i < |routes| ==> routes[i] == CollectionRoute(collections[i])
  {
    seq(|routes|, i requires 0 <= i < |routes| => routes[i].collection)
  }

  /**
   The collection routes keep the navigation order among collections of
   equal relative-path length.
   */
  lemma RenderedCollectionsStable(location: Location, nav: Navigation, k: nat)
    ensures var routes := RenderRoutes(location, Some(nav)).routes;
            && |nav.collections| < |routes|
            && (forall i :: 0 <= i < |nav.collections| ==> routes[i].CollectionRoute?)
            && WithKey(CollectionsOf(routes[..|nav.collections|]), k) == WithKey(nav.collections, k)
  {
    RouteBlocks(location, nav);
    SortIsStable(nav.collections, k);
  }

  /** Which block of the route list a route belongs to. */
  function Block(route: Route): nat {
    match route
    case CollectionRoute(_) => 0
    case ViewRoute(_, _) => 1
    case HomeRoute => 2
  }

  /** A collection block, a view block and the home route come in block order. */
  lemma BlocksInOrder(cr: seq<Route>, vr: seq<Route>)
    requires forall i :: 0 <= i < |cr| ==> cr[i].CollectionRoute?
    requires forall i :: 0 <= i < |vr| ==> vr[i].ViewRoute?
    ensures var routes := cr + vr + [HomeRoute];
            && (forall i, j :: 0 <= i < j < |routes| ==> Block(routes[i]) <= Block(routes[j]))
            && (forall j :: 0 <= j < |routes| && routes[j].CollectionRoute? ==> j < |cr| && routes[j] == cr[j])
  {
    var routes := cr + vr + [HomeRoute];
    forall i | 0 <= i < |routes|
      ensures Block(routes[i]) == (if i < |cr| then 0 else if i < |cr| + |vr| then 1 else 2)
      ensures i < |cr| ==> routes[i] == cr[i]
    {
      if i < |cr| {
        assert routes[i] == cr[i];
      } else if i < |cr| + |vr| {
        assert routes[i] == vr[i - |cr|];
      }
    }
  }

  /**
   The rendered routes are the collection routes, then the view routes,
   then the home route; the collection routes are ordered by non-increasing
   relative path length.
   */
  lemma RouteOrder(location: Location, nav: Navigation)
    ensures var routes := RenderRoutes(location, Some(nav)).routes;
            && (forall i, j :: 0 <= i < j < |routes| ==> Block(routes[i]) <= Block(routes[j]))
            && (forall i, j :: 0 <= i < j < |routes| && routes[j].CollectionRoute? ==>
                  routes[i].CollectionRoute? && Key(routes[i].collection) >= Key(routes[j].collection))
  {
    var sorted := SortCollections(nav.collections);
    var cr := CollectionRoutes(sorted);
    var vr := CustomRoutes(Views(nav));
    var routes := RenderRoutes(location, Some(nav)).routes;
    assert routes == cr + vr + [HomeRoute];
    BlocksInOrder(cr, vr);
    forall i, j | 0 <= i < j < |routes| && routes[j].CollectionRoute?
      ensures routes[i].CollectionRoute? && Key(routes[i].collection) >= Key(routes[j].collection)
    {
      assert routes[i] == CollectionRoute(sorted[i]) && routes[j] == CollectionRoute(sorted[j]);
    }
  }

  /** The rendered routes of a navigation, block by block. */
  lemma RenderedBlocks(location: Location, nav: Navigation)
    ensures |SortCollections(nav.collections)| == |nav.collections|
    ensures RenderRoutes(location, Some(nav)).routes ==
              CollectionRoutes(SortCollections(nav.collections)) + CustomRoutes(Views(nav)) + [HomeRoute]
  {
    assert |multiset(SortCollections(nav.collections))| == |multiset(nav.collections)|;
  }

  /** The blocks of a concatenation can be sliced back out. */
  lemma SliceBlocks(cr: seq<Route>, vr: seq<Route>)
    ensures (cr + vr + [HomeRoute])[..|cr|] == cr
    ensures (cr + vr + [HomeRoute])[|cr|..|cr + vr + [HomeRoute]| - 1] == vr
  {
  }

  /** Reading the collections back out of their routes gives the collections. */
  lemma CollectionsOfRoutes(collections: seq<EntityCollection>)
    ensures CollectionsOf(CollectionRoutes(collections)) == collections
  {
  }

  /**
   The collection block is the sorted collections, so it holds every
   collection of the navigation exactly as often as the navigation does, and
   the view block is the custom routes of the views in view order.
   */
  lemma RouteBlocks(location: Location, nav: Navigation)
    ensures var routes := RenderRoutes(location, Some(nav)).routes;
            && |nav.collections| < |routes|
            && (forall i :: 0 <= i < |nav.collections| ==> routes[i].CollectionRoute?)
            && CollectionsOf(routes[..|nav.collections|]) == SortCollections(nav.collections)
            && multiset(CollectionsOf(routes[..|nav.collections|])) == multiset(nav.collections)
            && routes[|nav.collections|..|routes| - 1] == CustomRoutes(Views(nav))
  {
    var cr := CollectionRoutes(SortCollections(nav.collections));
    RenderedBlocks(location, nav);
    SliceBlocks(cr, CustomRoutes(Views(nav)));
    CollectionsOfRoutes(SortCollections(nav.collections));
    var routes := RenderRoutes(location, Some(nav)).routes;
    assert forall i :: 0 <= i < |cr| ==> routes[i] == cr[i];
  }
}

=== FILE: delete.dfy ===
/**
 Deleting an entity with callbacks (src/hooks/data/delete.ts). The run is a
 small state machine: the schema's `onPreDelete` hook, the datasource
 delete, the caller's `onDeleteSuccess`, then the schema's `onDelete` hook.
 Every stage and every callback may return or throw; how each ends is an
 input here, and the run returns how its promise settles together with the
 trace of hooks and callbacks it invoked, in order.
 */
module DeleteWithCallbacks {
  import opened Models

  /**
   How one invoked step ends: it returns, or it throws. For the awaited
   `onPreDelete` and for the datasource promise, `Throws` also covers a
   rejection. `onDelete` and the caller's callbacks are not awaited, so for
   them `Throws` is a synchronous throw only; a promise they return that
   later rejects counts as `Returns`.
   */
  datatype Outcome = Returns | Throws(error: Error)

  /** The argument handed to `onPreDelete` and `onDelete`. */
  datatype EntityOnDeleteProps = EntityOnDeleteProps(entity: Entity, schema: EntitySchema, entityId: string, path: string)

  /**
   The schema's hooks and the datasource for one run. A hook is `None` when
   the schema does not define it, and otherwise says how it ends.
   */
  datatype Stages = Stages(onPreDelete: Option<Outcome>, dataSourceDelete: Outcome, onDelete: Option<Outcome>)

  /** The caller's optional callbacks, each `None` when not given. */
  datatype Callbacks = Callbacks(
    onDeleteSuccess: Option<Outcome>,
    onDeleteFailure: Option<Outcome>,
    onPreDeleteHookError: Option<Outcome>,
    onDeleteSuccessHookError: Option<Outcome>)

  /** One invocation made during a run. */
  datatype Event =
    | PreDeleteHook(props: EntityOnDeleteProps)
    | PreDeleteHookError(entity: Entity, error: Error)
    | DataSourceDelete(entity: Entity, schema: EntitySchema)
    | DeleteSuccess(entity: Entity)
    | DeleteHook(props: EntityOnDeleteProps)
    | DeleteSuccessHookError(entity: Entity, error: Error)
    | DeleteFailure(entity: Entity, error: Error)

  /** How a promise settles. */
  datatype Settled = Fulfilled(value: bool) | Rejected(reason: Error)

  /** How the `.then` handler ends: with a value, or with a throw that reaches `.catch`. */
  datatype HandlerEnd = Returned(b: bool) | Thrown(error: Error)

  /** The result of one run: the settled promise and the invocations in order. */
  datatype Run = Run(result: Settled, trace: seq<Event>)

  /** The event list of a callback that is invoked only when given. */
  function Invoke(callback: Option<Outcome>, event: Event): (t: seq<Event>)
    ensures t == [] || t == [event]
  {
    if callback.Some? then [event] else []
  }

  predicate IsThrow(step: Option<Outcome>) {
    step.Some? && step.value.Throws?
  }

  function OnDeleteProps(entity: Entity, schema: EntitySchema): (props: EntityOnDeleteProps)
    ensures props.entity == entity && props.schema == schema
    ensures props.entityId == entity.id && props.path == entity.path
  {
    EntityOnDeleteProps(entity, schema, entity.id, entity.path)
  }

  /** The `.catch` handler: report the failure if asked to, then settle with false. */
  function CatchHandler(entity: Entity, error: Error, callbacks: Callbacks): Run {
    var t := Invoke(callbacks.onDeleteFailure, DeleteFailure(entity, error));
    match callbacks.onDeleteFailure
    case Some(Throws(e)) => Run(Rejected(e), t)
    case _ => Run(Fulfilled(false), t)
  }

  /** The `.then` handler after the datasource fulfilled. */
  function ThenHandler(entity: Entity, props: EntityOnDeleteProps, stages: Stages, callbacks: Callbacks): (HandlerEnd, seq<Event>) {
    var notified := Invoke(callbacks.onDeleteSuccess, DeleteSuccess(entity));
    if IsThrow(callbacks.onDeleteSuccess) then
      (Thrown(callbacks.onDeleteSuccess.value.error), notified)
    else
      match stages.onDelete
      case None => (Returned(true), notified)
      case Some(Returns) => (Returned(true), notified + [DeleteHook(props)])
      case Some(Throws(e)) =>
        var t := notified + [DeleteHook(props)] + Invoke(callbacks.onDeleteSuccessHookError, DeleteSuccessHookError(entity, e));
        if IsThrow(callbacks.onDeleteSuccessHookError) then
          (Thrown(callbacks.onDeleteSuccessHookError.value.error), t)
        else
          (Returned(false), t)
  }

  /**
   Runs the whole delete. The pre-delete hook guards the datasource call;
   its failure is reported and settles the run with false. The datasource
   result then goes through a `.then` handler, and anything that rejects or
   throws there reaches the `.catch` handler.
   */
  function DeleteEntityWithCallbacks(entity: Entity, schema: EntitySchema, stages: Stages, callbacks: Callbacks): (run: Run)
    ensures stages.onPreDelete.None? ==> |run.trace| > 0 && run.trace[0] == DataSourceDelete(entity, schema)
    ensures run.result == Fulfilled(true) <==>
              && !IsThrow(stages.onPreDelete)
              && stages.dataSourceDelete.Returns?
              && !IsThrow(callbacks.onDeleteSuccess)
              && !IsThrow(stages.onDelete)
    ensures run.result.Rejected? <==>
              if IsThrow(stages.onPreDelete) then IsThrow(callbacks.onPreDeleteHookError)
              else && (|| stages.dataSourceDelete.Throws?
                       || IsThrow(callbacks.onDeleteSuccess)
                       || (IsThrow(stages.onDelete) && IsThrow(callbacks.onDeleteSuccessHookError)))
                   && IsThrow(callbacks.onDeleteFailure)
  {
    var props := OnDeleteProps(entity, schema);
    var pre := Invoke(stages.onPreDelete, PreDeleteHook(props));
    if IsThrow(stages.onPreDelete) then
      var e := stages.onPreDelete.value.error;
      var t := pre + Invoke(callbacks.onPreDeleteHookError, PreDeleteHookError(entity, e));
      if IsThrow(callbacks.onPreDeleteHookError) then
        Run(Rejected(callbacks.onPreDeleteHookError.value.error), t)
      else
        Run(Fulfilled(false), t)
    else
      var attempted := pre + [DataSourceDelete(entity, schema)];
      match stages.dataSourceDelete
      case Throws(e) =>
        var caught := CatchHandler(entity, e, callbacks);
        Run(caught.result, attempted + caught.trace)
      case Returns =>
        var (end, handled) := ThenHandler(entity, props, stages, callbacks);
        match end
        case Returned(b) => Run(Fulfilled(b), attempted + handled)
        case Thrown(e) =>
          var caught := CatchHandler(entity, e, callbacks);
          Run(caught.result, attempted + handled + caught.trace)
  }

  /** The position of each kind of invocation in the fixed order of a run. */
  function Rank(event: Event): nat {
    match event
    case PreDeleteHook(_) => 0
    case PreDeleteHookError(_, _) => 1
    case DataSourceDelete(_, _) => 2
    case DeleteSuccess(_) => 3
    case DeleteHook(_) => 4
    case DeleteSuccessHookError(_, _) => 5
    case DeleteFailure(_, _) => 6
  }

  /** Invocations happen in the fixed order and none happens twice. */
  ghost predicate InOrder(trace: seq<Event>) {
    forall i, j :: 0 <= i < j < |trace| ==> Rank(trace[i]) < Rank(trace[j])
  }

  lemma ConcatInOrder(a: seq<Event>, b: seq<Event>)
    requires InOrder(a) && InOrder(b)
    requires forall i, j :: 0 <= i < |a| && 0 <= j < |b| ==> Rank(a[i]) < Rank(b[j])
    ensures InOrder(a + b)
  {
    forall i, j | 0 <= i < j < |a + b|
      ensures Rank((a + b)[i]) < Rank((a + b)[j])
    {
      if j < |a| {
        assert (a + b)[i] == a[i] && (a + b)[j] == a[j];
      } else if i < |a| {
        assert (a + b)[i] == a[i] && (a + b)[j] == b[j - |a|];
      } else {
        assert (a + b)[i] == b[i - |a|] && (a + b)[j] == b[j - |a|];
      }
    }
  }

  /** The rank of every invocation in `trace` lies between `lo` and `hi`. */
  ghost predicate RanksWithin(trace: seq<Event>, lo: nat, hi: nat) {
    forall k :: 0 <= k < |trace| ==> lo <= Rank(trace[k]) <= hi
  }

  /** An ordered trace followed by an ordered trace of strictly higher ranks is ordered, within both bounds. */
  lemma ConcatOrderedWithin(a: seq<Event>, b: seq<Event>, lo: nat, mid: nat, hi: nat)
    requires InOrder(a) && InOrder(b) && lo <= mid < hi
    requires RanksWithin(a, lo, mid) && RanksWithin(b, mid + 1, hi)
    ensures InOrder(a + b) && RanksWithin(a + b, lo, hi)
  {
    ConcatInOrder(a, b);
    forall k | 0 <= k < |a + b|
      ensures lo <= Rank((a + b)[k]) <= hi
    {
      if k < |a| {
        assert (a + b)[k] == a[k];
      } else {
        assert (a + b)[k] == b[k - |a|];
      }
    }
  }

  /** A callback invoked only when given contributes an ordered trace of its own rank. */
  lemma InvokeOrdered(callback: Option<Outcome>, event: Event)
    ensures InOrder(Invoke(callback, event)) && RanksWithin(Invoke(callback, event), Rank(event), Rank(event))
  {
  }

  lemma CatchTraceOrdered(entity: Entity, error: Error, callbacks: Callbacks)
    ensures InOrder(CatchHandler(entity, error, callbacks).trace)
    ensures RanksWithin(CatchHandler(entity, error, callbacks).trace, 6, 6)
  {
    InvokeOrdered(callbacks.onDeleteFailure, DeleteFailure(entity, error));
  }

  lemma ThenTraceOrdered(entity: Entity, props: EntityOnDeleteProps, stages: Stages, callbacks: Callbacks)
    ensures InOrder(ThenHandler(entity, props, stages, callbacks).1)
    ensures RanksWithin(ThenHandler(entity, props, stages, callbacks).1, 3, 5)
  {
    var notified := Invoke(callbacks.onDeleteSuccess, DeleteSuccess(entity));
    InvokeOrdered(callbacks.onDeleteSuccess, DeleteSuccess(entity));
    var handled := ThenHandler(entity, props, stages, callbacks).1;
    if IsThrow(callbacks.onDeleteSuccess) || stages.onDelete.None? {
      assert handled == notified;
    } else {
      var hooked := notified + [DeleteHook(props)];
      ConcatOrderedWithin(notified, [DeleteHook(props)], 3, 3, 4);
      if stages.onDelete.value.Throws? {
        var e := stages.onDelete.value.error;
        var reported := Invoke(callbacks.onDeleteSuccessHookError, DeleteSuccessHookError(entity, e));
        InvokeOrdered(callbacks.onDeleteSuccessHookError, DeleteSuccessHookError(entity, e));
        assert handled == hooked + reported;
        ConcatOrderedWithin(hooked, reported, 3, 4, 5);
      } else {
        assert handled == hooked;
      }
    }
  }

  /**
   Every run invokes hooks and callbacks in the order pre-delete hook,
   its error callback, datasource delete, success callback, delete hook,
   its error callback, failure callback, and invokes none of them twice.
   */
  lemma TraceIsOrdered(entity: Entity, schema: EntitySchema, stages: Stages, callbacks: Callbacks)
    ensures InOrder(DeleteEntityWithCallbacks(entity, schema, stages, callbacks).trace)
  {
    var props := OnDeleteProps(entity, schema);
    var pre := Invoke(stages.onPreDelete, PreDeleteHook(props));
    InvokeOrdered(stages.onPreDelete, PreDeleteHook(props));
    if IsThrow(stages.onPreDelete) {
      var e := stages.onPreDelete.value.error;
      InvokeOrdered(callbacks.onPreDeleteHookError, PreDeleteHookError(entity, e));
      ConcatOrderedWithin(pre, Invoke(callbacks.onPreDeleteHookError, PreDeleteHookError(entity, e)), 0, 0, 1);
    } else {
      var attempted := pre + [DataSourceDelete(entity, schema)];
      ConcatOrderedWithin(pre, [DataSourceDelete(entity, schema)], 0, 1, 2);
      match stages.dataSourceDelete
      case Throws(e) =>
        CatchTraceOrdered(entity, e, callbacks);
        ConcatOrderedWithin(attempted, CatchHandler(entity, e, callbacks).trace, 0, 5, 6);
      case Returns =>
        var (end, handled) := ThenHandler(entity, props, stages, callbacks);
        ThenTraceOrdered(entity, props, stages, callbacks);
        ConcatOrderedWithin(attempted, handled, 0, 2, 5);
        match end
        case Returned(b) =>
        case Thrown(e) =>
          CatchTraceOrdered(entity, e, callbacks);
          ConcatOrderedWithin(attempted + handled, CatchHandler(entity, e, callbacks).trace, 0, 5, 6);
    }
  }

  /**
   A throwing pre-delete hook stops the run: the datasource is never asked
   to delete, the pre-delete error callback is invoked exactly when given,
   and the run does not settle with true (it settles with false unless that
   callback itself throws).
   */
  lemma PreDeleteFailureStops(entity: Entity, schema: EntitySchema, stages: Stages, callbacks: Callbacks, e: Error)
    requires stages.onPreDelete == Some(Throws(e))
    ensures var run := DeleteEntityWithCallbacks(entity, schema, stages, callbacks);
            && (forall i :: 0 <= i < |run.trace| ==> !run.trace[i].DataSourceDelete?)
            && (PreDeleteHookError(entity, e) in run.trace <==> callbacks.onPreDeleteHookError.Some?)
            && run.result != Fulfilled(true)
            && (!IsThrow(callbacks.onPreDeleteHookError) ==> run.result == Fulfilled(false))
            && run.trace == [PreDeleteHook(OnDeleteProps(entity, schema))]
                            + Invoke(callbacks.onPreDeleteHookError, PreDeleteHookError(entity, e))
  {
  }

  /**
   After a successful datasource delete the success callback is invoked
   before the schema's delete hook.
   */
  lemma SuccessCallbackPrecedesDeleteHook(entity: Entity, schema: EntitySchema, stages: Stages, callbacks: Callbacks)
    requires !IsThrow(stages.onPreDelete) && stages.dataSourceDelete.Returns?
    requires callbacks.onDeleteSuccess == Some(Returns) && stages.onDelete.Some?
    ensures var trace := DeleteEntityWithCallbacks(entity, schema, stages, callbacks).trace;
            exists i, j :: 0 <= i < j < |trace| && trace[i] == DeleteSuccess(entity)
                                                && trace[j] == DeleteHook(OnDeleteProps(entity, schema))
  {
    var props := OnDeleteProps(entity, schema);
    var trace := DeleteEntityWithCallbacks(entity, schema, stages, callbacks).trace;
    var k := if stages.onPreDelete.Some? then 2 else 1;
    assert trace[k] == DeleteSuccess(entity);
    assert trace[k + 1] == DeleteHook(props);
  }

  /**
   When the datasource delete fails, the failure callback is invoked exactly
   when given, neither the success callback nor the delete hook runs, and the
   run settles with false, or rejects with the failure callback's own error
   when that callback throws.
   */
  lemma DataSourceFailureReported(entity: Entity, schema: EntitySchema, stages: Stages, callbacks: Callbacks, e: Error)
    requires !IsThrow(stages.onPreDelete) && stages.dataSourceDelete == Throws(e)
    ensures var run := DeleteEntityWithCallbacks(entity, schema, stages, callbacks);
            && run.trace == Invoke(stages.onPreDelete, PreDeleteHook(OnDeleteProps(entity, schema)))
                            + [DataSourceDelete(entity, schema)]
                            + Invoke(callbacks.onDeleteFailure, DeleteFailure(entity, e))
            && (DeleteFailure(entity, e) in run.trace <==> callbacks.onDeleteFailure.Some?)
            && (forall i :: 0 <= i < |run.trace| ==> !run.trace[i].DeleteSuccess? && !run.trace[i].DeleteHook?)
            && run.result != Fulfilled(true)
            && (!IsThrow(callbacks.onDeleteFailure) ==> run.result == Fulfilled(false))
            && (IsThrow(callbacks.onDeleteFailure) ==> run.result == Rejected(callbacks.onDeleteFailure.value.error))
  {
  }

  /**
   A throw from the success callback is not caught by the inner `try` around
   the delete hook: it reaches `.catch`, so the delete hook never runs, the
   failure callback gets that error, and the run settles with false, or
   rejects when the failure callback throws.
   */
  lemma SuccessCallbackThrowReachesCatch(entity: Entity, schema: EntitySchema, stages: Stages, callbacks: Callbacks, e: Error)
    requires !IsThrow(stages.onPreDelete) && stages.dataSourceDelete.Returns?
    requires callbacks.onDeleteSuccess == Some(Throws(e))
    ensures var run := DeleteEntityWithCallbacks(entity, schema, stages, callbacks);
            && run.trace == Invoke(stages.onPreDelete, PreDeleteHook(OnDeleteProps(entity, schema)))
                            + [DataSourceDelete(entity, schema), DeleteSuccess(entity)]
                            + Invoke(callbacks.onDeleteFailure, DeleteFailure(entity, e))
            && (forall i :: 0 <= i < |run.trace| ==> !run.trace[i].DeleteHook?)
            && (DeleteFailure(entity, e) in run.trace <==> callbacks.onDeleteFailure.Some?)
            && run.result != Fulfilled(true)
            && (!IsThrow(callbacks.onDeleteFailure) ==> run.result == Fulfilled(false))
            && (IsThrow(callbacks.onDeleteFailure) ==> run.result == Rejected(callbacks.onDeleteFailure.value.error))
  {
  }

  /**
   A throwing delete hook after a successful delete is reported through the
   hook-error callback (when given) and the run does not settle with true.
   */
  lemma DeleteHookFailureReported(entity: Entity, schema: EntitySchema, stages: Stages, callbacks: Callbacks, e: Error)
    requires !IsThrow(stages.onPreDelete) && stages.dataSourceDelete.Returns?
    requires !IsThrow(callbacks.onDeleteSuccess) && stages.onDelete == Some(Throws(e))
    ensures var run := DeleteEntityWithCallbacks(entity, schema, stages, callbacks);
            && (DeleteSuccessHookError(entity, e) in run.trace <==> callbacks.onDeleteSuccessHookError.Some?)
            && run.result != Fulfilled(true)
            && (!IsThrow(callbacks.onDeleteSuccessHookError) ==> run.result == Fulfilled(false))
            && run.trace == Invoke(stages.onPreDelete, PreDeleteHook(OnDeleteProps(entity, schema)))
                            + [DataSourceDelete(entity, schema)]
                            + Invoke(callbacks.onDeleteSuccess, DeleteSuccess(entity))
                            + [DeleteHook(OnDeleteProps(entity, schema))]
                            + Invoke(callbacks.onDeleteSuccessHookError, DeleteSuccessHookError(entity, e))
                            + (if IsThrow(callbacks.onDeleteSuccessHookError)
                               then Invoke(callbacks.onDeleteFailure,
                                           DeleteFailure(entity, callbacks.onDeleteSuccessHookError.value.error))
                               else [])
  {
  }

  /**
   A run that settles with true invokes the pre-delete hook (when defined),
   the datasource delete, the success callback (when given) and the delete
   hook (when defined), and nothing else: no error or failure callback.
   */
  lemma SettledTrueTrace(entity: Entity, schema: EntitySchema, stages: Stages, callbacks: Callbacks)
    requires DeleteEntityWithCallbacks(entity, schema, stages, callbacks).result == Fulfilled(true)
    ensures DeleteEntityWithCallbacks(entity, schema, stages, callbacks).trace ==
              Invoke(stages.onPreDelete, PreDeleteHook(OnDeleteProps(entity, schema)))
              + [DataSourceDelete(entity, schema)]
              + Invoke(callbacks.onDeleteSuccess, DeleteSuccess(entity))
              + Invoke(stages.onDelete, DeleteHook(OnDeleteProps(entity, schema)))
  {
  }

  /** When every hook and callback is given and returns, the run makes exactly the four main invocations. */
  lemma HappyPath(entity: Entity, schema: EntitySchema, callbacks: Callbacks)
    requires callbacks.onDeleteSuccess == Some(Returns)
    ensures var props := OnDeleteProps(entity, schema);
            DeleteEntityWithCallbacks(entity, schema, Stages(Some(Returns), Returns, Some(Returns)), callbacks)
            == Run(Fulfilled(true), [PreDeleteHook(props), DataSourceDelete(entity, schema), DeleteSuccess(entity), DeleteHook(props)])
  {
  }
}

=== FILE: delete_dialog.dfy ===
/**
 The decisions of the delete confirmation dialog
 (src/collection/internal/DeleteEntityDialog.tsx): how the entity or
 entities it is given are normalised, what pressing "Ok" sets in motion in
 single and in multiple mode, how the per-entity results are summarised,
 and which title the dialog shows.
 */
module DeleteDialog {
  import opened Models
  import D = DeleteWithCallbacks

  /** What the dialog is asked to delete: one entity or an array of them. */
  datatype Target = Single(entity: Entity) | Multiple(entities: seq<Entity>)

  /** What the dialog remembers between renders: the normalised target, once one was given. */
  datatype DialogState = DialogState(target: Option<Target>)

  /** The kind of the notice shown after a delete. */
  datatype Notice = SuccessNotice | WarningNotice | ErrorNotice

  /** One visible effect of pressing "Ok", in the order they happen. */
  datatype DialogEvent =
    | StartLoading
    | PerformDelete(entity: Entity)
    | StopLoading
    | MultipleEntitiesDeleted(path: string, entities: seq<Entity>)
    | EntityDeleted(path: string, entity: Entity)
    | Notify(notice: Notice)
    | Close

  /** The entities a target names, in order. */
  function Entities(t: Target): seq<Entity> {
    match t
    case Single(e) => [e]
    case Multiple(es) => es
  }

  /** The dialog is in multiple mode when its remembered target is an array. */
  predicate IsMultiple(state: DialogState) {
    state.target.Some? && state.target.value.Multiple?
  }

  /** The entities the dialog would delete; none before a target was given. */
  function Targets(state: DialogState): seq<Entity> {
    if state.target.Some? then Entities(state.target.value) else []
  }

  /**
   A one-element array collapses to its sole entity; any other array,
   including the empty one, stays an array. Nothing is lost or reordered.
   */
  function Normalise(t: Target): (r: Target)
    ensures Entities(r) == Entities(t)
    ensures r.Multiple? <==> |Entities(t)| != 1
  {
    if t.Multiple? && |t.entities| == 1 then Single(t.entities[0]) else t
  }

  lemma NormaliseIdempotent(t: Target)
    ensures Normalise(Normalise(t)) == Normalise(t)
  {
  }

  /**
   The effect run when the target property changes: an undefined property
   leaves the remembered target alone; any other one (an array is truthy even
   when empty) is normalised and remembered, and fixes the mode.
   */
  function OnTargetChange(state: DialogState, prop: Option<Target>): (r: DialogState)
    ensures prop.None? ==> r == state
    ensures prop.Some? ==> Targets(r) == Entities(prop.value)
    ensures prop.Some? ==> (IsMultiple(r) <==> |Entities(prop.value)| != 1)
  {
    if prop.Some? then DialogState(Some(Normalise(prop.value))) else state
  }

  /**
   Summarises per-entity results: success when every delete succeeded
   (vacuously so for none), a warning when some but not all did, an error
   when there was at least one and none did.
   */
  function Classify(results: seq<bool>): (notice: Notice)
    ensures notice == SuccessNotice <==> forall i :: 0 <= i < |results| ==> results[i]
    ensures notice == WarningNotice <==>
              (exists i :: 0 <= i < |results| && results[i]) && (exists j :: 0 <= j < |results| && !results[j])
    ensures notice == ErrorNotice <==> |results| > 0 && forall i :: 0 <= i < |results| ==> !results[i]
  {
    assert |results| > 0 ==> results[0] in results;
    if false !in results then SuccessNotice
    else if true in results then WarningNotice
    else ErrorNotice
  }

  predicate AllFulfilled(results: seq<D.Settled>) {
    forall i :: 0 <= i < |results| ==> results[i].Fulfilled?
  }

  /** The booleans of a list of fulfilled results, in order. */
  function Values(results: seq<D.Settled>): (values: seq<bool>)
    requires AllFulfilled(results)
    ensures |values| == |results|
    ensures forall i :: 0 <= i < |results| ==> results[i] == D.Fulfilled(values[i])
  {
    seq(|results|, i requires 0 <= i < |results| => results[i].value)
  }

  /** One delete is started per entity, in order. */
  function Deletes(entities: seq<Entity>): (events: seq<DialogEvent>)
    ensures |events| == |entities|
    ensures forall i :: 0 <= i < |entities| ==> events[i] == PerformDelete(entities[i])
  {
    seq(|entities|, i requires 0 <= i < |entities| => PerformDelete(entities[i]))
  }

  /**
   The rest of the handler after every delete of a multiple delete fulfilled.
   A throw from `onMultipleEntitiesDelete` leaves the handler before the
   notice and the closing.
   */
  function MultipleFinished(path: string, entities: seq<Entity>, onMultipleEntitiesDelete: Option<D.Outcome>,
                            values: seq<bool>): seq<DialogEvent> {
    [StopLoading]
    + (if onMultipleEntitiesDelete.Some? then [MultipleEntitiesDeleted(path, entities)] else [])
    + (if D.IsThrow(onMultipleEntitiesDelete) then [] else [Notify(Classify(values)), Close])
  }

  /**
   The rest of the handler after a single delete settled with `success`. A
   throw from `onEntityDelete` leaves the handler before the notice and the
   closing.
   */
  function SingleFinished(path: string, entity: Entity, onEntityDelete: Option<D.Outcome>, success: bool): seq<DialogEvent> {
    if success then
      [StopLoading]
      + (if onEntityDelete.Some? then [EntityDeleted(path, entity)] else [])
      + (if D.IsThrow(onEntityDelete) then [] else [Notify(SuccessNotice), Close])
    else
      [StopLoading]
  }

  /**
   Pressing "Ok". `results` holds how the per-entity delete promises settle,
   one per target entity. In multiple mode the deletes are joined with
   `Promise.all`, whose handler runs only when none of them rejected; in
   single mode the handler runs once the one delete fulfils. The caller's
   callbacks are `None` when not given and otherwise say how they end.
   */
  function HandleOk(state: DialogState, path: string, onEntityDelete: Option<D.Outcome>,
                    onMultipleEntitiesDelete: Option<D.Outcome>, results: seq<D.Settled>): (events: seq<DialogEvent>)
    requires |results| == |Targets(state)|
    ensures state.target.None? ==> events == []
    ensures state.target.Some? ==> |events| > |results| && events[..1 + |results|] == [StartLoading] + Deletes(Targets(state))
  {
    if state.target.None? then []
    else
      var started := [StartLoading] + Deletes(Targets(state));
      if IsMultiple(state) then
        if AllFulfilled(results) then
          started + MultipleFinished(path, Targets(state), onMultipleEntitiesDelete, Values(results))
        else
          started
      else
        match results[0]
        case Rejected(_) => started
        case Fulfilled(success) => started + SingleFinished(path, state.target.value.entity, onEntityDelete, success)
  }

  /** Starting a delete shows no notice, stops nothing, calls no callback and does not close. */
  lemma StartedEffects(entities: seq<Entity>)
    ensures var started := [StartLoading] + Deletes(entities);
            forall i :: 0 <= i < |started| ==> started[i].StartLoading? || started[i].PerformDelete?
  {
  }

  /** The effects of the multiple-mode handler, case by case. */
  lemma MultipleFinishedEffects(path: string, entities: seq<Entity>, onMultipleEntitiesDelete: Option<D.Outcome>,
                                values: seq<bool>)
    ensures var finished := MultipleFinished(path, entities, onMultipleEntitiesDelete, values);
            && (Close in finished <==> !D.IsThrow(onMultipleEntitiesDelete))
            && (MultipleEntitiesDeleted(path, entities) in finished <==> onMultipleEntitiesDelete.Some?)
            && (Notify(Classify(values)) in finished <==> !D.IsThrow(onMultipleEntitiesDelete))
            && StopLoading in finished
            && (Close in finished ==> finished[|finished| - 1] == Close)
            && (forall i :: 0 <= i < |finished| ==> !finished[i].EntityDeleted?)
  {
    var finished := MultipleFinished(path, entities, onMultipleEntitiesDelete, values);
    if D.IsThrow(onMultipleEntitiesDelete) {
      assert finished == [StopLoading, MultipleEntitiesDeleted(path, entities)];
    } else if onMultipleEntitiesDelete.Some? {
      assert finished == [StopLoading, MultipleEntitiesDeleted(path, entities), Notify(Classify(values)), Close];
    } else {
      assert finished == [StopLoading, Notify(Classify(values)), Close];
    }
  }

  /**
   In multiple mode the dialog shows the notice and closes, whatever the
   per-entity booleans were, exactly when every delete fulfilled and
   `onMultipleEntitiesDelete` did not throw; that callback gets the whole
   list exactly when every delete fulfilled and it is given, and the notice
   summarises the booleans.
   */
  lemma MultipleDeleteClosesWhenAllFulfil(state: DialogState, path: string, onEntityDelete: Option<D.Outcome>,
                                          onMultipleEntitiesDelete: Option<D.Outcome>, results: seq<D.Settled>)
    requires |results| == |Targets(state)| && IsMultiple(state)
    ensures var events := HandleOk(state, path, onEntityDelete, onMultipleEntitiesDelete, results);
            && (Close in events <==> AllFulfilled(results) && !D.IsThrow(onMultipleEntitiesDelete))
            && (MultipleEntitiesDeleted(path, Targets(state)) in events <==>
                  AllFulfilled(results) && onMultipleEntitiesDelete.Some?)
            && (AllFulfilled(results) ==>
                  (Notify(Classify(Values(results))) in events <==> !D.IsThrow(onMultipleEntitiesDelete)))
            && (forall i :: 0 <= i < |events| ==> !events[i].EntityDeleted?)
  {
    var events := HandleOk(state, path, onEntityDelete, onMultipleEntitiesDelete, results);
    var started := [StartLoading] + Deletes(Targets(state));
    StartedEffects(Targets(state));
    if AllFulfilled(results) {
      var finished := MultipleFinished(path, Targets(state), onMultipleEntitiesDelete, Values(results));
      MultipleFinishedEffects(path, Targets(state), onMultipleEntitiesDelete, Values(results));
      assert events == started + finished;
      forall i | 0 <= i < |events|
        ensures !events[i].EntityDeleted?
      {
        if i >= |started| {
          assert events[i] == finished[i - |started|];
        }
      }
    } else {
      assert events == started;
    }
  }

  /**
   In multiple mode the loading indicator stops exactly when every delete
   fulfilled, so one rejected delete leaves it spinning; closing, when it
   happens, is the last effect.
   */
  lemma MultipleDeleteStopsLoading(state: DialogState, path: string, onEntityDelete: Option<D.Outcome>,
                                   onMultipleEntitiesDelete: Option<D.Outcome>, results: seq<D.Settled>)
    requires |results| == |Targets(state)| && IsMultiple(state)
    ensures var events := HandleOk(state, path, onEntityDelete, onMultipleEntitiesDelete, results);
            && (StopLoading in events <==> AllFulfilled(results))
            && (Close in events ==> events[|events| - 1] == Close)
  {
    var events := HandleOk(state, path, onEntityDelete, onMultipleEntitiesDelete, results);
    var started := [StartLoading] + Deletes(Targets(state));
    StartedEffects(Targets(state));
    if AllFulfilled(results) {
      var finished := MultipleFinished(path, Targets(state), onMultipleEntitiesDelete, Values(results));
      MultipleFinishedEffects(path, Targets(state), onMultipleEntitiesDelete, Values(results));
      assert events == started + finished;
    } else {
      assert events == started;
    }
  }

  /** The events of a single delete of `e` whose promise settles as `r`. */
  function SingleRun(path: string, e: Entity, onEntityDelete: Option<D.Outcome>, r: D.Settled): seq<DialogEvent> {
    [StartLoading, PerformDelete(e)] + (if r.Fulfilled? then SingleFinished(path, e, onEntityDelete, r.value) else [])
  }

  /** In single mode pressing "Ok" starts the one delete and runs the handler once it fulfils. */
  lemma SingleEvents(state: DialogState, path: string, onEntityDelete: Option<D.Outcome>,
                     onMultipleEntitiesDelete: Option<D.Outcome>, results: seq<D.Settled>)
    requires |results| == |Targets(state)| && state.target.Some? && !IsMultiple(state)
    ensures Targets(state) == [state.target.value.entity]
    ensures HandleOk(state, path, onEntityDelete, onMultipleEntitiesDelete, results) ==
              SingleRun(path, state.target.value.entity, onEntityDelete, results[0])
  {
    var e := state.target.value.entity;
    assert Targets(state) == [e];
    assert Deletes([e]) == [PerformDelete(e)];
  }

  /** The visible effects of a single delete, case by case. */
  lemma SingleRunEffects(path: string, e: Entity, onEntityDelete: Option<D.Outcome>, r: D.Settled)
    ensures var events := SingleRun(path, e, onEntityDelete, r);
            && (Close in events <==> r == D.Fulfilled(true) && !D.IsThrow(onEntityDelete))
            && (Notify(SuccessNotice) in events <==> r == D.Fulfilled(true) && !D.IsThrow(onEntityDelete))
            && (EntityDeleted(path, e) in events <==> onEntityDelete.Some? && r == D.Fulfilled(true))
            && (forall i :: 0 <= i < |events| ==> !events[i].MultipleEntitiesDeleted?)
            && (StopLoading in events <==> r.Fulfilled?)
            && (Close in events ==> events[|events| - 1] == Close)
  {
    var events := SingleRun(path, e, onEntityDelete, r);
    if r == D.Fulfilled(true) {
      if D.IsThrow(onEntityDelete) {
        assert events == [StartLoading, PerformDelete(e), StopLoading, EntityDeleted(path, e)];
      } else if onEntityDelete.Some? {
        assert events == [StartLoading, PerformDelete(e), StopLoading, EntityDeleted(path, e), Notify(SuccessNotice), Close];
      } else {
        assert events == [StartLoading, PerformDelete(e), StopLoading, Notify(SuccessNotice), Close];
      }
    } else if r == D.Fulfilled(false) {
      assert events == [StartLoading, PerformDelete(e), StopLoading];
    } else {
      assert events == [StartLoading, PerformDelete(e)];
    }
  }

  /**
   In single mode the success notice and the closing happen exactly when the
   delete fulfilled with true and `onEntityDelete` did not throw; that
   callback is invoked exactly when the delete fulfilled with true and it is
   given. Otherwise the dialog stays open.
   */
  lemma SingleDeleteClosesOnlyOnSuccess(state: DialogState, path: string, onEntityDelete: Option<D.Outcome>,
                                        onMultipleEntitiesDelete: Option<D.Outcome>, results: seq<D.Settled>)
    requires |results| == |Targets(state)| && state.target.Some? && !IsMultiple(state)
    ensures var events := HandleOk(state, path, onEntityDelete, onMultipleEntitiesDelete, results);
            && (Close in events <==> results[0] == D.Fulfilled(true) && !D.IsThrow(onEntityDelete))
            && (Notify(SuccessNotice) in events <==> results[0] == D.Fulfilled(true) && !D.IsThrow(onEntityDelete))
            && (EntityDeleted(path, Targets(state)[0]) in events <==> onEntityDelete.Some? && results[0] == D.Fulfilled(true))
            && (forall i :: 0 <= i < |events| ==> !events[i].MultipleEntitiesDeleted?)
  {
    SingleEvents(state, path, onEntityDelete, onMultipleEntitiesDelete, results);
    SingleRunEffects(path, state.target.value.entity, onEntityDelete, results[0]);
  }

  /**
   In single mode the loading indicator stops exactly when the delete
   fulfilled, whatever its boolean, so a rejected delete leaves it spinning;
   closing, when it happens, is the last effect.
   */
  lemma SingleDeleteStopsLoading(state: DialogState, path: string, onEntityDelete: Option<D.Outcome>,
                                 onMultipleEntitiesDelete: Option<D.Outcome>, results: seq<D.Settled>)
    requires |results| == |Targets(state)| && state.target.Some? && !IsMultiple(state)
    ensures var events := HandleOk(state, path, onEntityDelete, onMultipleEntitiesDelete, results);
            && (StopLoading in events <==> results[0].Fulfilled?)
            && (Close in events ==> events[|events| - 1] == Close)
  {
    SingleEvents(state, path, onEntityDelete, onMultipleEntitiesDelete, results);
    SingleRunEffects(path, state.target.value.entity, onEntityDelete, results[0]);
  }

  /**
   A delete that fails shows nothing further: when a delete of a multiple
   delete rejects, or the single delete rejects, only the start of the
   deletes happens; there is no `.catch`, so no notice, no callback, no
   closing, and loading is never stopped.
   */
  lemma RejectedDeleteShowsNothing(state: DialogState, path: string, onEntityDelete: Option<D.Outcome>,
                                   onMultipleEntitiesDelete: Option<D.Outcome>, results: seq<D.Settled>)
    requires |results| == |Targets(state)| && state.target.Some?
    requires if IsMultiple(state) then !AllFulfilled(results) else results[0].Rejected?
    ensures HandleOk(state, path, onEntityDelete, onMultipleEntitiesDelete, results) ==
              [StartLoading] + Deletes(Targets(state))
  {
  }

  /**
   A single delete that fulfils with false only stops the loading
   indicator: no notice, no callback, and the dialog stays open.
   */
  lemma UnsuccessfulSingleDeleteOnlyStopsLoading(state: DialogState, path: string, onEntityDelete: Option<D.Outcome>,
                                                 onMultipleEntitiesDelete: Option<D.Outcome>, results: seq<D.Settled>)
    requires |results| == |Targets(state)| && state.target.Some? && !IsMultiple(state)
    requires results[0] == D.Fulfilled(false)
    ensures HandleOk(state, path, onEntityDelete, onMultipleEntitiesDelete, results) ==
              [StartLoading] + Deletes(Targets(state)) + [StopLoading]
  {
  }

  /** Pressing "Ok" before any target was given does nothing. */
  lemma NoTargetNoEffect(path: string, onEntityDelete: Option<D.Outcome>, onMultipleEntitiesDelete: Option<D.Outcome>)
    ensures HandleOk(DialogState(None), path, onEntityDelete, onMultipleEntitiesDelete, []) == []
  {
  }

  /** The dialog title for the current mode. */
  function Title(schemaName: string, state: DialogState): string {
    if IsMultiple(state) then schemaName + ": Confirm multiple delete?"
    else "Would you like to delete this " + schemaName + "?"
  }

  /**
   Once a target is given, the title asks to confirm a multiple delete
   exactly when the target names other than one entity, so a one-element
   array gets the single-entity question.
   */
  lemma TitleFollowsNormalisedMode(schemaName: string, state: DialogState, t: Target)
    ensures Title(schemaName, OnTargetChange(state, Some(t))) ==
              if |Entities(t)| != 1 then schemaName + ": Confirm multiple delete?"
              else "Would you like to delete this " + schemaName + "?"
  {
  }
}

=== FILE: models.dfy ===
/**
 The records the decision logic of the content-management toolkit works on.
 Entities and schemas are owned by an external datasource; only the fields
 that some decision reads are kept here.
 */
module Models {

  /** A value that may be `undefined` (or `null`) in the original. */
  datatype Option<+T> = None | Some(value: T) {

    /** The value, or `default` when it is absent (the `??` operator). */
    function GetOr(default: T): T {
      match this
      case Some(v) => v
      case None => default
    }
  }

  /** A thrown JavaScript error; only its message is observable. */
  datatype Error = Error(message: string)

  /** An opaque property value stored in an entity. */
  datatype Value = Value(json: string)

  /**
   An entity as the datasource hands it out. `values` is absent when the
   underlying document does not exist.
   */
  datatype Entity = Entity(id: string, path: string, values: Option<map<string, Value>>)

  /**
   The parts of an entity schema the model reads: its display name and the
   keys of its `properties` object, in `Object.keys` order (integer-like
   keys first, ascending, then the others in insertion order).
   */
  datatype EntitySchema = EntitySchema(name: string, propertyKeys: seq<string>)
}

=== FILE: permissions.dfy ===
/**
 Permission resolution (src/util/permissions.ts). A collection's permission
 setting is absent, a fixed record, or a builder function of the logged user,
 the entity, the path and the application context. The three predicates
 `canEdit`, `canCreate` and `canDelete` read one field of the resolved record
 and treat an undefined field as granted.
 */
module Permissions {
  import opened Models

  /** A permissions record; each field may be left undefined. */
  datatype Permissions = Permissions(edit: Option<bool>, create: Option<bool>, delete: Option<bool>)

  datatype User = User(uid: string)

  /** The part of the authentication controller a builder sees. */
  datatype AuthController = AuthController(loggedUser: Option<User>)

  /** The application context handed through to builders; opaque here. */
  datatype AppContext = AppContext(id: nat)

  /** The single argument a permissions builder is called with. */
  datatype PermissionsBuilderProps =
    PermissionsBuilderProps(user: Option<User>, entity: Option<Entity>, path: string, context: AppContext)

  /** The three shapes a permission setting can take. */
  datatype PermissionSetting =
    | Unset
    | Fixed(permissions: Permissions)
    | Builder(build: PermissionsBuilderProps -> Permissions)

  /** Everything is allowed when no permission setting is given. */
  const DefaultPermissions := Permissions(Some(true), Some(true), Some(true))

  /** True when a permission field grants: undefined counts as granted. */
  predicate Grants(field: Option<bool>) {
    field.GetOr(true)
  }

  /**
   Resolves a setting to a record: the defaults when unset, the record itself
   when fixed, and the builder's answer for the caller's user, entity, path
   and context otherwise.
   */
  function CheckHasPermissionOnEntity(setting: PermissionSetting, entity: Option<Entity>, auth: AuthController,
                                      path: string, context: AppContext): (r: Permissions)
    ensures setting.Unset? ==> r == DefaultPermissions && Grants(r.edit) && Grants(r.create) && Grants(r.delete)
    ensures setting.Fixed? ==> r == setting.permissions
    ensures setting.Builder? ==>
              r == setting.build(PermissionsBuilderProps(auth.loggedUser, entity, path, context))
  {
    match setting
    case Unset => DefaultPermissions
    case Fixed(p) => p
    case Builder(build) => build(PermissionsBuilderProps(auth.loggedUser, entity, path, context))
  }

  function CanEdit(setting: PermissionSetting, entity: Entity, auth: AuthController,
                   path: string, context: AppContext): (allowed: bool)
    ensures !allowed <==> CheckHasPermissionOnEntity(setting, Some(entity), auth, path, context).edit == Some(false)
  {
    CheckHasPermissionOnEntity(setting, Some(entity), auth, path, context).edit.GetOr(DefaultPermissions.edit.value)
  }

  /** Creation is checked before any entity exists, so the builder sees no entity. */
  function CanCreate(setting: PermissionSetting, auth: AuthController,
                     path: string, context: AppContext): (allowed: bool)
    ensures !allowed <==> CheckHasPermissionOnEntity(setting, None, auth, path, context).create == Some(false)
  {
    CheckHasPermissionOnEntity(setting, None, auth, path, context).create.GetOr(DefaultPermissions.create.value)
  }

  function CanDelete(setting: PermissionSetting, entity: Entity, auth: AuthController,
                     path: string, context: AppContext): (allowed: bool)
    ensures !allowed <==> CheckHasPermissionOnEntity(setting, Some(entity), auth, path, context).delete == Some(false)
  {
    CheckHasPermissionOnEntity(setting, Some(entity), auth, path, context).delete.GetOr(DefaultPermissions.delete.value)
  }

  /** Without a setting every action is allowed, whatever the entity, user, path or context. */
  lemma UnsetAllowsEverything(entity: Entity, auth: AuthController, path: string, context: AppContext)
    ensures CanEdit(Unset, entity, auth, path, context)
    ensures CanCreate(Unset, auth, path, context)
    ensures CanDelete(Unset, entity, auth, path, context)
  {
  }

  /**
   A fixed record is returned unchanged, so the answers of the three
   predicates do not depend on the entity, the user, the path or the context.
   */
  lemma FixedIgnoresCaller(p: Permissions, e1: Entity, e2: Entity, a1: AuthController, a2: AuthController,
                           path1: string, path2: string, c1: AppContext, c2: AppContext)
    ensures CheckHasPermissionOnEntity(Fixed(p), Some(e1), a1, path1, c1) == p
    ensures CanEdit(Fixed(p), e1, a1, path1, c1) == CanEdit(Fixed(p), e2, a2, path2, c2) == Grants(p.edit)
    ensures CanCreate(Fixed(p), a1, path1, c1) == CanCreate(Fixed(p), a2, path2, c2) == Grants(p.create)
    ensures CanDelete(Fixed(p), e1, a1, path1, c1) == CanDelete(Fixed(p), e2, a2, path2, c2) == Grants(p.delete)
  {
  }

  /**
   A builder decides each check from the single argument it is called with:
   the logged user, the entity (none for creation), the path and the context.
   Each predicate refuses exactly when the builder's answer sets its field to
   false.
   */
  lemma BuilderDecidesFromProps(build: PermissionsBuilderProps -> Permissions, e: Entity,
                                auth: AuthController, path: string, context: AppContext)
    ensures CanEdit(Builder(build), e, auth, path, context) <==>
              build(PermissionsBuilderProps(auth.loggedUser, Some(e), path, context)).edit != Some(false)
    ensures CanCreate(Builder(build), auth, path, context) <==>
              build(PermissionsBuilderProps(auth.loggedUser, None, path, context)).create != Some(false)
    ensures CanDelete(Builder(build), e, auth, path, context) <==>
              build(PermissionsBuilderProps(auth.loggedUser, Some(e), path, context)).delete != Some(false)
  {
  }
}

=== FILE: reference_preview.dfy ===
/**
 The decisions of the reference preview
 (src/preview/components/ReferencePreview.tsx): which property keys of the
 referenced entity are listed for a given preview size, which body is shown
 for the value it is given, and when rendering raises instead.
 */
module ReferencePreview {
  import opened Models

  datatype PreviewSize = Regular | Small | Tiny

  /** A reference to an entity by collection path and id. */
  datatype EntityReference = EntityReference(id: string, path: string)

  /**
   The value the preview receives: `undefined` or `null`; another falsy
   value (`""`, `0`, `false`); a truthy value that is not a reference,
   shown through its JSON text; or a reference.
   */
  datatype PreviewValue =
    | Undefined
    | FalsyPrimitive
    | NonReference(json: string)
    | Reference(reference: EntityReference)

  /** The reference property being previewed: its target collection path and optional preview keys. */
  datatype ReferenceProperty = ReferenceProperty(path: string, previewProperties: Option<seq<string>>)

  /** A registered collection view; only its schema is read. */
  datatype CollectionConfig = CollectionConfig(schema: EntitySchema)

  /** What the preview shows. */
  datatype Body =
    | ReferenceNotSet
    | UnexpectedValue(tooltip: string)
    | ReferenceDoesNotExist(tooltip: string)
    | PreviewBody(reference: EntityReference, entity: Option<Entity>, listProperties: seq<string>)

  /** Why rendering raised. */
  datatype RenderError = CollectionNotFound(path: string) | ReadPathOfUndefined

  datatype Render = Rendered(body: Body) | Raised(error: RenderError)

  /** How many property keys a preview of each size lists at most. */
  function Limit(size: PreviewSize): nat {
    match size
    case Regular => 3
    case Small => 3
    case Tiny => 1
  }

  function Min(a: nat, b: nat): nat {
    if a <= b then a else b
  }

  /** The explicit preview keys, or every schema key when none (or an empty list) are given. */
  function BaseProperties(previewProperties: Option<seq<string>>, schemaKeys: seq<string>): seq<string> {
    if previewProperties.None? || |previewProperties.value| == 0 then schemaKeys else previewProperties.value
  }

  /**
   The keys listed: the longest prefix of the base keys that fits the
   size's limit, so order is kept and nothing is added.
   */
  function ListProperties(previewProperties: Option<seq<string>>, schemaKeys: seq<string>, size: PreviewSize): (list: seq<string>)
    ensures list <= BaseProperties(previewProperties, schemaKeys)
    ensures |list| == Min(|BaseProperties(previewProperties, schemaKeys)|, Limit(size))
  {
    var base := BaseProperties(previewProperties, schemaKeys);
    base[..Min(|base|, Limit(size))]
  }

  /**
   Without usable preview keys the schema's keys are listed; a tiny preview
   lists at most one key and a small or regular one at most three, each of
   them a key of the base list.
   */
  lemma ListPropertiesBounds(previewProperties: Option<seq<string>>, schemaKeys: seq<string>, size: PreviewSize)
    ensures var list := ListProperties(previewProperties, schemaKeys, size);
            && (previewProperties.None? || previewProperties.value == [] ==> list <= schemaKeys)
            && (size == Tiny ==> |list| <= 1)
            && (size != Tiny ==> |list| <= 3)
            && (forall k :: k in list ==> k in BaseProperties(previewProperties, schemaKeys))
  {
    var list := ListProperties(previewProperties, schemaKeys, size);
    var base := BaseProperties(previewProperties, schemaKeys);
    forall k | k in list
      ensures k in base
    {
      var i :| 0 <= i < |list| && list[i] == k;
      assert base[i] == k;
    }
  }

  /**
   Picks the body, checking in order: a falsy value is "not set", a value
   that is not a reference is "unexpected", a loaded entity without values
   "does not exist", and anything else gets the preview proper.
   */
  function ChooseBody(value: PreviewValue, entity: Option<Entity>, listProperties: seq<string>): (body: Body)
    ensures body == ReferenceNotSet <==> value.Undefined? || value.FalsyPrimitive?
    ensures body.UnexpectedValue? <==> value.NonReference?
    ensures body.ReferenceDoesNotExist? <==> value.Reference? && entity.Some? && entity.value.values.None?
    ensures body.PreviewBody? <==> value.Reference? && (entity.None? || entity.value.values.Some?)
    ensures body.PreviewBody? ==> body.reference == value.reference && body.listProperties == listProperties
  {
    match value
    case Undefined => ReferenceNotSet
    case FalsyPrimitive => ReferenceNotSet
    case NonReference(json) => UnexpectedValue(json)
    case Reference(reference) =>
      if entity.Some? && entity.value.values.None? then ReferenceDoesNotExist(reference.path)
      else PreviewBody(reference, entity, listProperties)
  }

  /**
   The component as written: the collection config is looked up first, and
   then the entity fetch reads `path` of the value before the body is
   chosen, which raises for an undefined or null value.
   */
  function ReferencePreviewAsWritten(value: PreviewValue, property: ReferenceProperty, size: PreviewSize,
                                     registry: map<string, CollectionConfig>, entity: Option<Entity>): (r: Render)
    ensures property.path !in registry ==> r == Raised(CollectionNotFound(property.path))
    ensures r.Rendered? <==> property.path in registry && !value.Undefined?
  {
    if property.path !in registry then Raised(CollectionNotFound(property.path))
    else if value.Undefined? then Raised(ReadPathOfUndefined)
    else
      var keys := registry[property.path].schema.propertyKeys;
      Rendered(ChooseBody(value, entity, ListProperties(property.previewProperties, keys, size)))
  }

  /**
   As written, an undefined value never reaches the "not set" body that
   the body choice reserves for it: rendering raises instead.
   */
  lemma UndefinedValueRaisesAsWritten(property: ReferenceProperty, size: PreviewSize,
                                      registry: map<string, CollectionConfig>, entity: Option<Entity>)
    requires property.path in registry
    ensures ReferencePreviewAsWritten(Undefined, property, size, registry, entity) == Raised(ReadPathOfUndefined)
    ensures ChooseBody(Undefined, entity, []) == ReferenceNotSet
  {
  }

  /**
   The component with the fetch reading the reference only when there is
   one: the only way to raise is a missing collection config, and every
   other input renders the chosen body.
   */
  function RenderReferencePreview(value: PreviewValue, property: ReferenceProperty, size: PreviewSize,
                                  registry: map<string, CollectionConfig>, entity: Option<Entity>): (r: Render)
    ensures r.Raised? <==> property.path !in registry
    ensures r.Raised? ==> r.error == CollectionNotFound(property.path)
    ensures r.Rendered? ==>
              r.body == ChooseBody(value, entity,
                                   ListProperties(property.previewProperties, registry[property.path].schema.propertyKeys, size))
  {
    if property.path !in registry then Raised(CollectionNotFound(property.path))
    else
      var keys := registry[property.path].schema.propertyKeys;
      Rendered(ChooseBody(value, entity, ListProperties(property.previewProperties, keys, size)))
  }

  /** With a registered collection, an undefined value shows "Reference not set". */
  lemma UndefinedValueShowsNotSet(property: ReferenceProperty, size: PreviewSize,
                                  registry: map<string, CollectionConfig>, entity: Option<Entity>)
    requires property.path in registry
    ensures RenderReferencePreview(Undefined, property, size, registry, entity) == Rendered(ReferenceNotSet)
  {
  }

  /** Both versions agree on every value other than an undefined one. */
  lemma CorrectionOnlyAffectsUndefined(value: PreviewValue, property: ReferenceProperty, size: PreviewSize,
                                       registry: map<string, CollectionConfig>, entity: Option<Entity>)
    requires !value.Undefined?
    ensures ReferencePreviewAsWritten(value, property, size, registry, entity)
            == RenderReferencePreview(value, property, size, registry, entity)
  {
  }
}

=== FILE: text_search.dfy ===
/**
 Text search (src/hooks/useTextSearch.tsx). A search delegate turns the
 search string into entity ids; each id is fetched from the datasource, a
 fetch that throws counts as null, and only present entities with values
 are kept, in the order of the ids. The delegate and the datasource are
 inputs here; the hook's state is the data list and the loading flag.
 */
module TextSearch {
  import opened Models

  /** One datasource fetch as it is issued. */
  datatype FetchRequest = FetchRequest(path: string, entityId: string, schema: EntitySchema)

  /** How a fetch ends. */
  datatype FetchOutcome = Fetched(entity: Entity) | FetchFailed(error: Error)

  /** How the delegate's search ends. */
  datatype SearchOutcome = Ids(ids: seq<string>) | SearchFailed(error: Error)

  datatype TextSearchDelegate = TextSearchDelegate(performTextSearch: string -> SearchOutcome)

  /** The hook's state. */
  datatype SearchState = SearchState(data: seq<Entity>, loading: bool)

  /** The state a search leaves behind and the fetches it issued, in order. */
  datatype SearchRun = SearchRun(state: SearchState, requests: seq<FetchRequest>)

  const Cleared := SearchState([], false)

  /** A fetch that throws is caught and turned into null. */
  function FetchOrNull(outcome: FetchOutcome): Option<Entity> {
    match outcome
    case Fetched(e) => Some(e)
    case FetchFailed(_) => None
  }

  /** The filter applied to the fetched list: non-null and with values. */
  predicate Keep(found: Option<Entity>) {
    found.Some? && found.value.values.Some?
  }

  /** The fetches issued for `ids`, all with the same path and schema. */
  function Requests(ids: seq<string>, path: string, schema: EntitySchema): (requests: seq<FetchRequest>)
    ensures |requests| == |ids|
    ensures forall i :: 0 <= i < |ids| ==> requests[i] == FetchRequest(path, ids[i], schema)
  {
    seq(|ids|, i requires 0 <= i < |ids| => FetchRequest(path, ids[i], schema))
  }

  /** The joined fetch results, one per id and in the order of the ids. */
  function FetchAll(ids: seq<string>, path: string, schema: EntitySchema, fetch: FetchRequest -> FetchOutcome): (found: seq<Option<Entity>>)
    ensures |found| == |ids|
    ensures forall i :: 0 <= i < |ids| ==> found[i] == FetchOrNull(fetch(FetchRequest(path, ids[i], schema)))
  {
    seq(|ids|, i requires 0 <= i < |ids| => FetchOrNull(fetch(FetchRequest(path, ids[i], schema))))
  }

  /** The kept entities, in order. */
  function KeepPresent(found: seq<Option<Entity>>): (entities: seq<Entity>)
    ensures |entities| <= |found|
    ensures forall k :: 0 <= k < |entities| ==> entities[k].values.Some?
  {
    if found == [] then []
    else (if Keep(found[0]) then [found[0].value] else []) + KeepPresent(found[1..])
  }

  /** Filtering a concatenation filters each part and keeps them in order. */
  lemma {:induction false} KeepPresentAppend(a: seq<Option<Entity>>, b: seq<Option<Entity>>)
    ensures KeepPresent(a + b) == KeepPresent(a) + KeepPresent(b)
  {
    if a == [] {
      assert a + b == b;
    } else {
      var ab := a + b;
      assert ab[0] == a[0];
      assert ab[1..] == a[1..] + b;
      KeepPresentAppend(a[1..], b);
      var first := if Keep(a[0]) then [a[0].value] else [];
      assert KeepPresent(ab) == first + KeepPresent(a[1..] + b);
      assert KeepPresent(a) == first + KeepPresent(a[1..]);
    }
  }

  /** An entity survives the filter exactly when it was found and has values. */
  lemma {:induction false} KeepPresentMembership(found: seq<Option<Entity>>, e: Entity)
    ensures e in KeepPresent(found) <==> e.values.Some? && Some(e) in found
  {
    if found != [] {
      KeepPresentMembership(found[1..], e);
      assert found == [found[0]] + found[1..];
    }
  }

  /** The entities a list of ids hydrates to. */
  function Hydrate(ids: seq<string>, path: string, schema: EntitySchema, fetch: FetchRequest -> FetchOutcome): seq<Entity> {
    KeepPresent(FetchAll(ids, path, schema, fetch))
  }

  /**
   Hydration keeps the order of the ids: hydrating a concatenation of id
   lists gives the hydrated parts one after the other.
   */
  lemma HydrateAppend(ids1: seq<string>, ids2: seq<string>, path: string, schema: EntitySchema,
                      fetch: FetchRequest -> FetchOutcome)
    ensures Hydrate(ids1 + ids2, path, schema, fetch) == Hydrate(ids1, path, schema, fetch) + Hydrate(ids2, path, schema, fetch)
  {
    assert FetchAll(ids1 + ids2, path, schema, fetch) == FetchAll(ids1, path, schema, fetch) + FetchAll(ids2, path, schema, fetch);
    KeepPresentAppend(FetchAll(ids1, path, schema, fetch), FetchAll(ids2, path, schema, fetch));
  }

  /**
   An entity is in the hydrated list exactly when the fetch of one of the
   ids returned it and it has values: failed fetches and entities without
   values are dropped, and nothing else appears.
   */
  lemma HydrateMembership(ids: seq<string>, path: string, schema: EntitySchema,
                          fetch: FetchRequest -> FetchOutcome, e: Entity)
    ensures e in Hydrate(ids, path, schema, fetch) <==>
              e.values.Some? && exists i :: 0 <= i < |ids| && fetch(FetchRequest(path, ids[i], schema)) == Fetched(e)
  {
    var found := FetchAll(ids, path, schema, fetch);
    KeepPresentMembership(found, e);
    if Some(e) in found {
      var i :| 0 <= i < |found| && found[i] == Some(e);
      assert fetch(FetchRequest(path, ids[i], schema)) == Fetched(e);
    }
    if exists i :: 0 <= i < |ids| && fetch(FetchRequest(path, ids[i], schema)) == Fetched(e) {
      var i :| 0 <= i < |ids| && fetch(FetchRequest(path, ids[i], schema)) == Fetched(e);
      assert found[i] == Some(e);
    }
  }

  /**
   `onTextSearch`: without a delegate nothing changes; an empty or missing
   string clears the data; otherwise the ids of the delegate are fetched
   with the hook's path and schema and hydrated. A failing delegate leaves
   the data alone and the loading flag raised.
   */
  function OnTextSearch(delegate: Option<TextSearchDelegate>, searchString: Option<string>, state: SearchState,
                        path: string, schema: EntitySchema, fetch: FetchRequest -> FetchOutcome): (run: SearchRun)
    ensures delegate.None? ==> run == SearchRun(state, [])
    ensures delegate.Some? && (searchString.None? || searchString.value == []) ==> run == SearchRun(Cleared, [])
    ensures forall r :: r in run.requests ==> r.path == path && r.schema == schema
    ensures !run.state.loading && run.requests != [] ==> |run.state.data| <= |run.requests|
    ensures delegate.Some? && searchString.Some? && searchString.value != [] &&
            delegate.value.performTextSearch(searchString.value).SearchFailed? ==>
              run == SearchRun(SearchState(state.data, true), [])
  {
    if delegate.None? then SearchRun(state, [])
    else if searchString.None? || |searchString.value| == 0 then SearchRun(Cleared, [])
    else
      match delegate.value.performTextSearch(searchString.value)
      case SearchFailed(_) => SearchRun(SearchState(state.data, true), [])
      case Ids(ids) => SearchRun(SearchState(Hydrate(ids, path, schema, fetch), false), Requests(ids, path, schema))
  }

  /**
   The effect run when the search string (or path, schema or delegate)
   changes: a non-empty string starts a search, anything else clears the
   data and the loading flag, delegate or not.
   */
  function OnSearchInputsChange(searchString: Option<string>, delegate: Option<TextSearchDelegate>, state: SearchState,
                                path: string, schema: EntitySchema, fetch: FetchRequest -> FetchOutcome): (run: SearchRun)
    ensures searchString.None? || searchString.value == [] ==> run == SearchRun(Cleared, [])
    ensures searchString.Some? && searchString.value != [] ==>
              run == OnTextSearch(delegate, searchString, state, path, schema, fetch)
  {
    if searchString.Some? && |searchString.value| > 0 then OnTextSearch(delegate, searchString, state, path, schema, fetch)
    else SearchRun(Cleared, [])
  }

  /**
   A completed search issues one fetch per id, in order, and its data are
   the fetched entities with values, in the order of their ids.
   */
  lemma CompletedSearch(delegate: TextSearchDelegate, searchString: string, state: SearchState, path: string,
                        schema: EntitySchema, fetch: FetchRequest -> FetchOutcome, ids: seq<string>)
    requires searchString != [] && delegate.performTextSearch(searchString) == Ids(ids)
    ensures var run := OnTextSearch(Some(delegate), Some(searchString), state, path, schema, fetch);
            && !run.state.loading
            && |run.requests| == |ids|
            && (forall i :: 0 <= i < |ids| ==> run.requests[i].entityId == ids[i])
            && run.state.data == Hydrate(ids, path, schema, fetch)
            && |run.state.data| <= |ids|
  {
  }
}
